=== FILE: README.md ===
# Batch image-resize controller, modelled in Dafny

`backend/index.php` is a single PHP script. It receives a POST with
several image files (`images[]`) and an optional target `width` and
`height`. It stores each file under `uploads/` and writes a copy stretched
to exactly width x height under `uploads/resized/`. It answers with one
JSON object: either `status: success` with one result entry per resized
file (`originalName`, `resizedName`, `path`), or `status: error` with a
single message.

The model treats the whole request as one pure function,
`Controller.Handle(request, host)`. It returns the reply and the list of
resized files it would write:

- `wrappers.dfy` (`Wrappers`) has the `Option` type for absent fields and
  unselected formats.
- `text.dfy` (`Text`) has ASCII lower-casing as PHP 8's `strtolower` does
  it, and a last-occurrence search.
- `pathinfo.dfy` (`PathInfo`) covers PHP's `pathinfo`: the base name after
  trailing slashes are trimmed, the extension after the last dot, and the
  file name before it.
- `phpint.dfy` (`PhpInt`) covers PHP 8's `intval` on a string:
  - leading whitespace and an optional sign are skipped;
  - a plain digit run is kept when it fits 64 bits;
  - beyond that it is capped to the bound of its sign;
  - from 2^1024 - 2^970 on, where its double is infinite, it reads as 0;
  - fraction and exponent forms go through PHP's float conversion,
    which the host hands in;
  - anything else reads as 0.
- `formats.dfy` (`Formats`) holds the `switch ($extension)` dispatch to
  JPEG, PNG, GIF, or "skip".
- `naming.dfy` (`Naming`) covers the upload path, the `<file
  name>_resized.<ext>` name and the `uploads/resized/` path.
- `gd.dfy` (`Gd`) models the GD calls as function values handed in with
  the host. An image is a width, a height and a pixel value of a type the
  model never inspects.
- `controller.dfy` (`Controller`) holds the request, the host, the guards
  in source order, the `foreach` over the uploads, and the final
  success/error decision.
- `properties.dfy` (`ControllerProperties`) states request-level
  properties: which error wins, what the size fields mean, when the batch
  fails, what a successful reply holds, and two concrete scenarios.

The host bundles everything the script gets from its environment:
- whether each directory exists or can be created (`is_dir || mkdir`);
- whether `move_uploaded_file` succeeds for a given source and
  destination;
- the GD library;
- PHP's conversion of a floating-point numeral to an integer.

Behaviour of the script worth knowing, all of which the model keeps:
- A size field that is present but does not start with a number reads as
  0 through `intval`, so the request fails with "Invalid width or height".
  The 600 x 800 default applies only when the field is absent.
- "No images received" is checked before the size fields. A POST with no
  files and a bad size therefore gets "No images received".
- No GD return value is checked. Provided every GD call returns (see
  "## Left out" for when one does not), there is no decode or encode
  error, and every supported file that moves produces an entry.
- The upload is moved before its extension is looked at. A move failure on
  a file that would have been skipped still aborts the batch.

## Model

| member | source | states |
|---|---|---|
| Text.Lower | backend/index.php:58 | `strtolower` keeps the length. With `LowerSpec`, it leaves no upper-case letter, changes nothing but the 26 upper-case ASCII letters, and is idempotent. |
| Text.LastIndex | backend/index.php:58-59 | The position `pathinfo` and `basename` search for (the last '.' or '/') is -1 or an index into the text. |
| Text.LastIndexSpec | backend/index.php:58-59 | That position holds the character, no later position does, and it is -1 exactly when the character does not occur. |
| PathInfo.Basename | backend/index.php:58-59 | `php_basename` inside `pathinfo`: the component after the last '/', trailing slashes ignored. It carries no contract of its own. `PartsSpec`, `BasenameOfPlainName` and `BasenameAfterSlash` state what it gives. |
| PathInfo.BasenameOfPlainName | backend/index.php:58-59 | `basename` of a name without '/', the form an uploaded name arrives in, is the name itself. With `PartsSpec`, a base name never contains '/'. |
| PathInfo.Extension | backend/index.php:58 | The extension is empty, or shorter than the base name. With `PartsSpec`, it holds no '.' or '/'. |
| PathInfo.Filename | backend/index.php:59 | The file name is the whole base name, or as long as what is left of it once the dot and the extension are removed. With `SplitRoundTrip`, it is exactly that text. |
| PathInfo.PartsSpec | backend/index.php:58-59 | The base name holds no '/'. The extension holds no '/' or '.'. The file name holds no '/'. |
| PathInfo.SplitRoundTrip | backend/index.php:58-59 | The base name is the file name, a dot and the extension when it contains a dot. Otherwise it is the file name, and the extension is empty. |
| PathInfo.SplitOfJoined | backend/index.php:58-59 | `pathinfo` splits a plain name `f.e` (no '/', no dot in `e`) back into `f` and `e`. |
| PhpInt.IntVal | backend/index.php:31-32 | `intval` of a field's text always lies in the 64-bit integer range. |
| PhpInt.ReadDecimal | backend/index.php:31-32 | A decimal number, unsigned or behind '+' or '-', followed by text that ends the number:<br>- reads as its value when it fits 64 bits;<br>- reads as the bound of its sign up to 2^1024 - 2^970;<br>- reads as 0 from there on. |
| PhpInt.ReadDecimalThenFloat | backend/index.php:31-32 | Digits followed by a '.' or an exponent are read through the float conversion. |
| PhpInt.LeadingDotIsFloat | backend/index.php:31-32 | A '.' followed by a digit, with or without a '-' in front, is read through the float conversion. |
| PhpInt.SkipsLeadingSpace | backend/index.php:31-32 | `intval` ignores a leading whitespace character. |
| PhpInt.NonNumericIsZero | backend/index.php:31-32 | Text that does not start with a number reads as 0. Starting with a number means, after whitespace and an optional sign, a digit or a '.' followed by a digit. |
| Controller.Dimension | backend/index.php:31-32 | An absent size field gives the default. A present one gives a value in the 64-bit range, whatever its text. |
| Formats.FormatOf | backend/index.php:71-84 | The `switch` selects a format only for one of that format's own extensions. It selects nothing for an extension outside the jpg/jpeg, png, gif table. |
| Formats.FormatOfMatchesTable | backend/index.php:71-84 | The dispatch selects a format exactly for that format's extensions (jpg/jpeg, png, gif), in both directions, and selects nothing for every other extension. |
| Formats.LowerExtensionSpec | backend/index.php:58 | The extension the controller works with has no upper-case letter, no '.' and no '/'. |
| Formats.Classify | backend/index.php:58-84 | A name selects a format only when its lower-cased extension is one of that format's extensions. It selects none when the extension is outside the table. |
| Formats.ClassifyByLastDot | backend/index.php:58-84 | For `f.e` the format depends only on `e` lower-cased: the text after the final dot, with its case ignored. |
| Formats.NoDotUnsupported | backend/index.php:58-84 | A name without a dot has an empty extension and is skipped. |
| Naming.ResizedName | backend/index.php:59 | The resized name begins with the original file name (case kept), ends with the lower-cased extension, and has something in between. |
| Naming.ResizedPath | backend/index.php:61 | The resized path lies directly inside "uploads/resized/". `basename` of it gives back the resized name. |
| Naming.UploadPath | backend/index.php:60 | The move target lies inside "uploads/". For a plain, non-empty name, its base name is the uploaded name itself. |
| Naming.UploadNeverResized | backend/index.php:60-63 | A plain uploaded name is never moved onto a resized path, so a move in the batch cannot replace a resized copy written before it. |
| Naming.SameResizedPath | backend/index.php:58-61 | Two names that differ only in the letter case of their extension ("a.jpg" and "a.JPG") get the same resized path. |
| Naming.ResizedNameParts | backend/index.php:58-59 | Read back through `pathinfo`, the resized name has the original's lower-cased extension and the original file name plus "_resized". It contains no '/'. |
| Naming.ResizedKeepsFormat | backend/index.php:58-99 | The resized name selects the same format as the original name, so the copy is encoded in the format it was decoded from. |
| Naming.ResizedNameOfJoined | backend/index.php:58-59 | For `f.e`, the resized name is `f` (case kept) + "_resized." + `e` lower-cased. |
| Naming.ResizedNamePlain | backend/index.php:59 | The resized name is never empty and never contains '/'. |
| Gd.CopyResampled | backend/index.php:87 | Resampling repaints the destination and keeps its size, whatever the source's size. |
| Gd.Resize | backend/index.php:68-100 | The image handed to the encoder is exactly w x h, whatever the original's size. Its pixels are the upload's content, decoded in the given format and resampled from its stored size onto a blank w x h canvas. The bytes are that image encoded in the same format. |
| Controller.SizeRejected | backend/index.php:34 | The guard as written, with its redundant `!$width` and `!$height` tests, rejects exactly a width or a height that is not positive. |
| Controller.Moves | backend/index.php:63 | `move_uploaded_file` from the upload's temporary name to its path under "uploads/". It is a host oracle with no contract of its own: `RunBatch` and `MoveFailureAborts` state that a false answer for any upload aborts the batch. |
| Controller.Supported | backend/index.php:71-84 | The kept uploads are exactly the uploads with a supported extension, and there are no more of them than uploads. |
| Controller.SupportedAppend | backend/index.php:56-84 | Skipping keeps upload order: the kept uploads of a batch are those of its first part followed by those of the rest. |
| Controller.EntriesFor | backend/index.php:105-109 | There is one result entry per upload, in upload order. |
| Controller.StoredFor | backend/index.php:61-99 | The write for a supported upload:<br>- it goes to the upload's resized path;<br>- the file's own name there is the resized name, and that name selects the format the bytes are encoded in;<br>- the image is exactly w x h, drawn from that upload's content. |
| Controller.FilesFor | backend/index.php:56-103 | There is one write per upload, in upload order, each of the upload's own resized content. |
| Controller.ProcessOne | backend/index.php:56-109 | One loop pass:<br>- it stops exactly when the move fails;<br>- it skips exactly when the move succeeds and the extension is unsupported;<br>- otherwise it writes the upload's own content, resized to w x h and in the name's format, to the entry's path. |
| Controller.RunBatch | backend/index.php:56-110 | The loop aborts exactly when some upload fails to move. Every entry it collects is paired with a written file of the requested size, at the entry's path, in the original's format. |
| Controller.RunBatchEntries | backend/index.php:56-110 | When every upload moves, the loop collects exactly one entry per supported upload, in upload order. |
| Controller.RunBatchFiles | backend/index.php:56-110 | When every upload moves, the loop makes exactly one write per supported upload, in upload order: that upload's content resized. |
| Controller.Handle | backend/index.php:9-116 | The reply is success exactly when:<br>- every guard passes;<br>- every upload moves;<br>- some upload is supported.<br>It then lists one entry per supported upload in order. Each entry is paired with the write made from that upload's content, at the entry's path. Every written image has the requested size, and nothing is written unless the guards pass. |
| ControllerProperties.MethodGuard | backend/index.php:9-22 | OPTIONS gets an empty reply. Any other method except POST gets "Invalid request method". Neither writes anything. |
| ControllerProperties.NoImagesFirst | backend/index.php:25-28 | A POST without files gets "No images received" and writes nothing, whatever the size fields say. |
| ControllerProperties.InvalidSizeBeforeMoves | backend/index.php:34-37 | A width or height that reads as zero or less gets "Invalid width or height" and writes nothing. The reply is the same on every host that reads numbers the same way. |
| ControllerProperties.NonNumericSizeRejected | backend/index.php:31-37 | A present size field that does not start with a number makes the request fail with "Invalid width or height". |
| ControllerProperties.HugeSizeRejected | backend/index.php:31-37 | A size given as a digit run of at least 2^1024 - 2^970 reads as 0 and fails the request with "Invalid width or height". |
| ControllerProperties.AbsentSizeUsesDefaults | backend/index.php:31-32 | Absent size fields mean 600 x 800. Such sizes pass the guard, and every written image is 600 x 800. |
| ControllerProperties.DirectoryGuards | backend/index.php:43-51 | With positive sizes, a missing upload directory gives its message first, and a missing resized directory gives its own. |
| ControllerProperties.MoveFailureAborts | backend/index.php:63-66 | One upload that cannot be moved fails the whole batch with "Failed to move uploaded file", even if it would have been skipped. |
| ControllerProperties.NothingSupportedFails | backend/index.php:112-116 | A batch that moved fully but had no supported file gets "Image processing failed" and writes nothing. |
| ControllerProperties.SuccessEntries | backend/index.php:105-116 | A success reply has one entry per supported upload, in upload order. Each entry has:<br>- the original name unchanged;<br>- its resized name;<br>- the path "uploads/resized/" + resized name. |
| ControllerProperties.SupportedSingle | backend/index.php:71-84 | A single upload is kept exactly when it is supported. |
| ControllerProperties.JpegName | backend/index.php:58-73 | `f.jpg` selects JPEG and is renamed `f_resized.jpg`. |
| ControllerProperties.DecimalSizes | backend/index.php:31-32 | Sizes sent as decimal numbers within the 64-bit range are read as those numbers. |
| ControllerProperties.JpegEntry | backend/index.php:105-109 | The entry for `f.jpg` is (`f.jpg`, `f_resized.jpg`, `uploads/resized/f_resized.jpg`). |
| ControllerProperties.SingleUpload | backend/index.php:56-116 | When a single supported upload moves, the reply is success with its entry. One write is made: that upload resized, in its format, at the requested size. |
| ControllerProperties.SingleJpegScenario | backend/index.php:9-116 | POST of `f.jpg` with decimal sizes w, h: success listing `f.jpg` / `f_resized.jpg` / `uploads/resized/f_resized.jpg`, and one w x h JPEG written. |
| ControllerProperties.SupportedPair | backend/index.php:71-84 | A supported upload followed by an unsupported one keeps only the first. |
| ControllerProperties.MixedBatchScenario | backend/index.php:56-116 | A supported file followed by an unsupported one, both moved: the reply lists only the first. |

## Left out

- CORS and content-type headers, `http_response_code`, `error_log` and `json_encode` (lines 2-6, 10, 15-17): these are transport and logging. The reply is a datatype, not JSON text. File names are modelled as Unicode text. In PHP they are bytes, and for a name that is not valid UTF-8 `json_encode` returns `false`, so the script echoes an empty body instead of the reply.
- The file system: `is_dir`/`mkdir` and `move_uploaded_file` are host oracles. The original files left in `uploads/`, and files written before an aborting move failure, are not tracked as disk state. The model returns the written list only.
- Controller.Handle: `written` is the log of writes in order, not the disk contents. Two uploads with the same resized path (see `Naming.SameResizedPath`, or one name uploaded twice) both get an entry. On disk, the later write replaces the earlier file, so both entries point at the last upload's image.
- `__DIR__`: the script writes under its own directory. The model uses the relative paths "uploads/" and "uploads/resized/", which are the paths the reply reports.
- GD internals (`getimagesize`, `imagecreatefrom*`, `imagecopyresampled`, `image*` output, `imagedestroy`): these are foreign library calls. They are function values with no behaviour assumed beyond sizes.
- Controller.Handle: assumes every GD call returns. In PHP 8 three cases stop the script with an uncaught error instead of a JSON reply, and none is modelled:
  - a width or height of 2^31 - 1 or more makes `imagecreatetruecolor` throw a ValueError;
  - a smaller size whose pixel buffer would overflow GD's integer arithmetic makes it return `false`, and `imagecopyresampled` then throws a TypeError;
  - a file whose bytes are not a valid image in the format its extension names (a corrupt file, or a valid PNG named `x.jpg`) makes `imagecreatefrom*` return `false`, with the same TypeError.

  A canvas larger than PHP's memory limit is a fatal error too, and depends on configuration.
- PhpInt.IntVal: the integer value of a fraction or exponent form (".5e3", "1.5", "2e3") is the host's `floatToInt`, not computed. Correctly rounded decimal-to-double conversion (`zend_strtod`) is outside this model. Only its cap is stated: the result lies in the 64-bit range.
- PathInfo.Basename: does not model the Windows '\\' separator or locale-dependent multibyte handling in PHP's `basename`. PHP also already strips directory parts from an uploaded file's name.
- Array-valued `width`/`height` fields (`width[]=800`) are not modelled. A size field is text or absent. In PHP 8, `intval` of such an array gives 1, or 0 for an empty one, without an error. So `width[]=800&height[]=600` passes the size guard and produces 1 x 1 images.
- A single-file `images` field (not an array): `count` of a string throws a TypeError in PHP 8. The model takes the files as a list.
- The React front end (`src/App.tsx`) and the dev-server configuration (`vite.config.ts`): presentation and build code, not the controller.

=== FILE: controller.dfy ===
/** The batch resize controller: one POST request carrying image files and
    a target width and height comes in, one JSON reply goes out, either
    the list of resized files or a single error message.

    The request is checked in a fixed order (method, presence of files,
    size, directories); then every file is moved out of PHP's temporary
    storage, classified by its extension, and, when its format is
    supported, resized and written next to the others. A failed move ends
    the whole batch; an unsupported file is passed over without a word; a
    batch that produced nothing is reported as a failure. */
module Controller {
  import opened Wrappers
  import opened PhpInt
  import opened PathInfo
  import opened Formats
  import opened Naming
  import opened Gd

  /** One entry of the `images` upload field: the name the client gave the
      file, the temporary file PHP stored it in, and its bytes. */
  datatype Upload = Upload(name: string, tmpName: string, content: Bytes)

  /** What the controller reads of the HTTP request: the HTTP method,
      the uploaded files (None when the request has no `images` upload
      field) and the `width` and `height` form fields (None when absent,
      the raw text otherwise). */
  datatype Request = Request(verb: string, images: Option<seq<Upload>>,
                             width: Option<string>, height: Option<string>)

  /** The machine the controller runs on: whether each of the two
      directories exists or can be created, whether moving a temporary
      file to a destination succeeds, the GD library, and PHP's
      conversion of a floating-point numeral to an integer (see
      `PhpInt.IntVal`). */
  datatype Host<!P> = Host(uploadDirReady: bool, resizedDirReady: bool,
                           move: (string, string) -> bool, gd: Library<P>,
                           floatToInt: string -> int)

  /** One element of the `results` array of a successful reply. */
  datatype Entry = Entry(originalName: string, resizedName: string, path: string)

  /** The reply body: nothing for a preflight request, `status: success`
      with results, or `status: error` with a message. */
  datatype Response = Preflight | Success(results: seq<Entry>) | Failure(message: string)

  /** A resized file written to disk: where, in which format, the image
      handed to the encoder and the bytes the encoder produced. */
  datatype Stored<P> = Stored(path: string, format: Format, image: Image<P>, bytes: Bytes)

  /** The reply together with the resized files the request left on disk. */
  datatype Reply<P> = Reply(response: Response, written: seq<Stored<P>>)

  const DefaultWidth: int := 600
  const DefaultHeight: int := 800

  const InvalidMethod: string := "Invalid request method"
  const NoImages: string := "No images received"
  const InvalidSize: string := "Invalid width or height"
  const UploadDirFailed: string := "Failed to create upload directory"
  const ResizedDirFailed: string := "Failed to create resized images directory"
  const MoveFailed: string := "Failed to move uploaded file"
  const ProcessingFailed: string := "Image processing failed"

  /** A size field: the default when absent, `intval` of its text when
      present, even when that text is not a number. */
  function Dimension(field: Option<string>, default: int, floatToInt: string -> int): (d: int)
    ensures field.None? ==> d == default
    ensures field.Some? ==> IntMin <= d <= IntMax
  {
    match field
    case None => default
    case Some(s) => IntVal(s, floatToInt)
  }

  function RequestedWidth<P>(req: Request, host: Host<P>): int {
    Dimension(req.width, DefaultWidth, host.floatToInt)
  }

  function RequestedHeight<P>(req: Request, host: Host<P>): int {
    Dimension(req.height, DefaultHeight, host.floatToInt)
  }

  /** The size guard as the controller writes it. Its `== 0` tests add
      nothing: it rejects exactly a width or a height that is not positive. */
  function SizeRejected(w: int, h: int): (r: bool)
    ensures r <==> w <= 0 || h <= 0
  {
    w == 0 || h == 0 || w <= 0 || h <= 0
  }

  /** The uploaded files, or none when the field is missing. */
  function Items(req: Request): seq<Upload> {
    match req.images
    case None => []
    case Some(items) => items
  }

  /** Every check before the batch loop passes. */
  predicate GuardsPass<P>(req: Request, host: Host<P>) {
    && req.verb == "POST"
    && |Items(req)| > 0
    && !SizeRejected(RequestedWidth(req, host), RequestedHeight(req, host))
    && host.uploadDirReady
    && host.resizedDirReady
  }

  /** `move_uploaded_file` succeeds for this upload. */
  predicate Moves<P>(item: Upload, host: Host<P>) {
    host.move(item.tmpName, UploadPath(item.name))
  }

  predicate AllMoved<P>(items: seq<Upload>, host: Host<P>) {
    forall i :: 0 <= i < |items| ==> Moves(items[i], host)
  }

  predicate IsSupported(item: Upload) {
    Classify(item.name).Some?
  }

  /** The uploads whose format is supported, in upload order. */
  function Supported(items: seq<Upload>): (s: seq<Upload>)
    ensures |s| <= |items|
    ensures forall x :: x in s ==> x in items && IsSupported(x)
    ensures forall x :: x in items && IsSupported(x) ==> x in s
  {
    if |items| == 0 then []
    else if IsSupported(items[0]) then [items[0]] + Supported(items[1..])
    else Supported(items[1..])
  }

  /** Filtering keeps relative order: the supported files of a batch are
      those of its first part followed by those of the rest. */
  lemma {:induction false} SupportedAppend(a: seq<Upload>, b: seq<Upload>)
    ensures Supported(a + b) == Supported(a) + Supported(b)
  {
    if |a| == 0 {
      assert a + b == b;
    } else {
      assert (a + b)[1..] == a[1..] + b;
      SupportedAppend(a[1..], b);
    }
  }

  /** The result entry the controller reports for an upload. */
  function EntryFor(item: Upload): Entry {
    Entry(item.name, ResizedName(item.name), ResizedPath(item.name))
  }

  /** The entries for a list of uploads, one each, in the same order. */
  function EntriesFor(items: seq<Upload>): (es: seq<Entry>)
    ensures |es| == |items|
    ensures forall k :: 0 <= k < |items| ==> es[k] == EntryFor(items[k])
  {
    if |items| == 0 then [] else [EntryFor(items[0])] + EntriesFor(items[1..])
  }

  /** The file written for a supported upload: its content decoded in the
      format its name selects, resized to w x h and encoded back in that
      format, at its resized path. The file's own name is the resized name
      and selects the format its bytes are encoded in. */
  function StoredFor<P>(item: Upload, w: int, h: int, host: Host<P>): (s: Stored<P>)
    requires IsSupported(item)
    ensures s.path == ResizedPath(item.name) && Classify(item.name) == Some(s.format)
    ensures Rendering(s.image, s.bytes) == Resize(host.gd, s.format, item.content, w, h)
    ensures Basename(s.path) == ResizedName(item.name)
    ensures Classify(Basename(s.path)) == Some(s.format)
    ensures s.image.width == w && s.image.height == h
    ensures s.bytes == host.gd.encode(s.format, s.image)
  {
    ResizedKeepsFormat(item.name);
    var format := Classify(item.name).value;
    var r := Resize(host.gd, format, item.content, w, h);
    Stored(ResizedPath(item.name), format, r.image, r.bytes)
  }

  /** The files written for a list of supported uploads, one each, in the
      same order. */
  function FilesFor<P>(items: seq<Upload>, w: int, h: int, host: Host<P>): (fs: seq<Stored<P>>)
    requires forall x :: x in items ==> IsSupported(x)
    ensures |fs| == |items|
    ensures forall k :: 0 <= k < |items| ==> fs[k] == StoredFor(items[k], w, h, host)
  {
    if |items| == 0 then []
    else
      assert items[0] in items;
      [StoredFor(items[0], w, h, host)] + FilesFor(items[1..], w, h, host)
  }

  /** What one pass of the loop does with one upload. */
  datatype Step<P> = Unmoved | Skipped | Resized(entry: Entry, stored: Stored<P>)

  /** One pass of the loop: move the upload (its name and paths derived
      first), then classify it; skip it when unsupported, otherwise resize
      it, write the copy and produce its entry. */
  function ProcessOne<P>(item: Upload, w: int, h: int, host: Host<P>): (s: Step<P>)
    ensures s.Unmoved? <==> !Moves(item, host)
    ensures s.Skipped? <==> Moves(item, host) && !IsSupported(item)
    ensures s.Resized? ==> s.entry == EntryFor(item) && s.stored.path == s.entry.path
    ensures s.Resized? ==> s.stored.image.width == w && s.stored.image.height == h
    ensures s.Resized? ==> Classify(item.name) == Some(s.stored.format)
    ensures s.Resized? ==> s.stored.bytes == host.gd.encode(s.stored.format, s.stored.image)
    ensures s.Resized? ==> IsSupported(item) && s.stored == StoredFor(item, w, h, host)
  {
    if !host.move(item.tmpName, UploadPath(item.name)) then Unmoved
    else if !IsSupported(item) then Skipped
    else
      var stored := StoredFor(item, w, h, host);
      Resized(EntryFor(item), stored)
  }

  /** The state the loop leaves behind: the entries collected, the files
      written, and whether a failed move cut it short. */
  datatype Run<P> = Run(entries: seq<Entry>, written: seq<Stored<P>>, aborted: bool)

  /** Entries and written files pair up one to one: each file sits at the
      path its entry reports, holds an image of exactly w x h, and is
      encoded in the format the entry's original name selects. */
  predicate Paired<P>(entries: seq<Entry>, written: seq<Stored<P>>, w: int, h: int) {
    && |written| == |entries|
    && forall k :: 0 <= k < |written| ==>
         && written[k].path == entries[k].path
         && written[k].image.width == w && written[k].image.height == h
         && Classify(entries[k].originalName) == Some(written[k].format)
  }

  lemma PairedCons<P>(e: Entry, s: Stored<P>, entries: seq<Entry>, written: seq<Stored<P>>, w: int, h: int)
    requires Paired(entries, written, w, h)
    requires s.path == e.path && s.image.width == w && s.image.height == h
    requires Classify(e.originalName) == Some(s.format)
    ensures Paired([e] + entries, [s] + written, w, h)
  {
    var es := [e] + entries;
    var ss := [s] + written;
    forall k | 0 <= k < |ss|
      ensures ss[k].path == es[k].path
      ensures ss[k].image.width == w && ss[k].image.height == h
      ensures Classify(es[k].originalName) == Some(ss[k].format)
    {
      if k > 0 {
        assert ss[k] == written[k - 1] && es[k] == entries[k - 1];
      }
    }
  }

  /** The `foreach` over the uploads. It stops at the first upload that
      cannot be moved, and until then pairs every entry it collects with
      the file it wrote. */
  function RunBatch<P>(items: seq<Upload>, w: int, h: int, host: Host<P>): (r: Run<P>)
    ensures r.aborted <==> !AllMoved(items, host)
    ensures Paired(r.entries, r.written, w, h)
  {
    if |items| == 0 then Run([], [], false)
    else
      var rest := RunBatch(items[1..], w, h, host);
      AllMovedCons(items, host);
      match ProcessOne(items[0], w, h, host)
      case Unmoved => Run([], [], true)
      case Skipped => rest
      case Resized(e, s) =>
        PairedCons(e, s, rest.entries, rest.written, w, h);
        Run([e] + rest.entries, [s] + rest.written, rest.aborted)
  }

  /** When every upload moves, the loop reports exactly one entry per
      supported upload, in upload order. */
  lemma {:induction false} RunBatchEntries<P>(items: seq<Upload>, w: int, h: int, host: Host<P>)
    requires AllMoved(items, host)
    ensures RunBatch(items, w, h, host).entries == EntriesFor(Supported(items))
  {
    if |items| > 0 {
      AllMovedCons(items, host);
      RunBatchEntries(items[1..], w, h, host);
      if IsSupported(items[0]) {
        EntriesForCons(items[0], Supported(items[1..]));
      }
    }
  }

  /** When every upload moves, the loop writes exactly one file per
      supported upload, in upload order: that upload's content resized. */
  lemma {:induction false} RunBatchFiles<P>(items: seq<Upload>, w: int, h: int, host: Host<P>)
    requires AllMoved(items, host)
    ensures RunBatch(items, w, h, host).written == FilesFor(Supported(items), w, h, host)
  {
    if |items| > 0 {
      AllMovedCons(items, host);
      RunBatchFiles(items[1..], w, h, host);
      if IsSupported(items[0]) {
        FilesForCons(items[0], Supported(items[1..]), w, h, host);
      }
    }
  }

  lemma FilesForCons<P>(x: Upload, s: seq<Upload>, w: int, h: int, host: Host<P>)
    requires IsSupported(x) && forall y :: y in s ==> IsSupported(y)
    ensures forall y :: y in [x] + s ==> IsSupported(y)
    ensures FilesFor([x] + s, w, h, host) == [StoredFor(x, w, h, host)] + FilesFor(s, w, h, host)
  {
    assert ([x] + s)[1..] == s;
  }

  lemma AllMovedCons<P>(items: seq<Upload>, host: Host<P>)
    requires |items| > 0
    ensures AllMoved(items, host) <==> Moves(items[0], host) && AllMoved(items[1..], host)
  {
    if Moves(items[0], host) && AllMoved(items[1..], host) {
      forall i | 0 <= i < |items| ensures Moves(items[i], host) {
        if i > 0 { assert items[i] == items[1..][i - 1]; }
      }
    }
  }

  lemma EntriesForCons(x: Upload, s: seq<Upload>)
    ensures EntriesFor([x] + s) == [EntryFor(x)] + EntriesFor(s)
  {
    assert ([x] + s)[1..] == s;
  }

  /** Every written image is exactly w x h. */
  predicate AllSized<P>(written: seq<Stored<P>>, w: int, h: int) {
    forall k :: 0 <= k < |written| ==> written[k].image.width == w && written[k].image.height == h
  }

  /** The whole request, from the method check to the final reply. It
      succeeds exactly when every guard passes, every upload moves and at
      least one upload is supported; it then reports one entry per
      supported upload in upload order, each paired with the file written
      for it, and that file is the upload's own content resized. Every
      image handed to the encoder has the requested size, and nothing is
      written unless every guard passed. */
  function Handle<P>(req: Request, host: Host<P>): (r: Reply<P>)
    ensures r.response.Success? <==>
      GuardsPass(req, host) && AllMoved(Items(req), host) && |Supported(Items(req))| > 0
    ensures r.response.Success? ==> r.response.results == EntriesFor(Supported(Items(req)))
    ensures r.response.Success? ==>
      Paired(r.response.results, r.written, RequestedWidth(req, host), RequestedHeight(req, host))
    ensures r.response.Success? ==>
      r.written == FilesFor(Supported(Items(req)), RequestedWidth(req, host), RequestedHeight(req, host), host)
    ensures AllSized(r.written, RequestedWidth(req, host), RequestedHeight(req, host))
    ensures !GuardsPass(req, host) ==> r.written == []
  {
    if req.verb == "OPTIONS" then Reply(Preflight, [])
    else if req.verb != "POST" then Reply(Failure(InvalidMethod), [])
    else if |Items(req)| == 0 then Reply(Failure(NoImages), [])
    else if SizeRejected(RequestedWidth(req, host), RequestedHeight(req, host)) then Reply(Failure(InvalidSize), [])
    else if !host.uploadDirReady then Reply(Failure(UploadDirFailed), [])
    else if !host.resizedDirReady then Reply(Failure(ResizedDirFailed), [])
    else
      var run := RunBatch(Items(req), RequestedWidth(req, host), RequestedHeight(req, host), host);
      if run.aborted then Reply(Failure(MoveFailed), run.written)
      else
        RunBatchEntries(Items(req), RequestedWidth(req, host), RequestedHeight(req, host), host);
        RunBatchFiles(Items(req), RequestedWidth(req, host), RequestedHeight(req, host), host);
        if |run.entries| == 0 then Reply(Failure(ProcessingFailed), run.written)
        else Reply(Success(run.entries), run.written)
  }
}

=== FILE: formats.dfy ===
/** The format dispatch of the controller: a file's format follows from
    the lower-cased extension of its name, never from its content. */
module Formats {
  import opened Wrappers
  import opened Text
  import opened PathInfo

  /** The three formats the controller decodes and re-encodes. */
  datatype Format = Jpeg | Png | Gif

  /** The lower-case extensions that select each format. */
  function ExtensionsOf(f: Format): set<string> {
    match f
    case Jpeg => {"jpg", "jpeg"}
    case Png => {"png"}
    case Gif => {"gif"}
  }

  /** The `switch ($extension)` dispatch; None means "skip this file". A
      format is selected only for one of its own extensions, and nothing is
      selected for an extension outside the table. */
  function FormatOf(ext: string): (r: Option<Format>)
    ensures r.Some? ==> ext in ExtensionsOf(r.value)
    ensures r.None? ==> ext !in ExtensionsOf(Jpeg) + ExtensionsOf(Png) + ExtensionsOf(Gif)
  {
    if ext == "jpg" || ext == "jpeg" then Some(Jpeg)
    else if ext == "png" then Some(Png)
    else if ext == "gif" then Some(Gif)
    else None
  }

  /** The dispatch agrees with the extension table in both directions, and
      an extension outside the table selects no format. */
  lemma FormatOfMatchesTable(ext: string, f: Format)
    ensures FormatOf(ext) == Some(f) <==> ext in ExtensionsOf(f)
    ensures FormatOf(ext) == None <==> ext !in ExtensionsOf(Jpeg) + ExtensionsOf(Png) + ExtensionsOf(Gif)
  {
  }

  /** `strtolower(pathinfo($name, PATHINFO_EXTENSION))`. */
  function LowerExtension(name: string): string {
    Lower(Extension(name))
  }

  /** The lower-cased extension holds no upper-case letter, no '.' and no
      '/'. */
  lemma LowerExtensionSpec(name: string)
    ensures NoUpper(LowerExtension(name))
    ensures '.' !in LowerExtension(name) && '/' !in LowerExtension(name)
  {
    var ext := Extension(name);
    PartsSpec(name);
    LowerSpec(ext);
    LowerKeepsNonLetter(ext, '.');
    LowerKeepsNonLetter(ext, '/');
  }

  /** The format a file name selects, or None for an unsupported one: a
      format exactly when the lower-cased extension is one of its
      extensions. */
  function Classify(name: string): (r: Option<Format>)
    ensures r.Some? ==> LowerExtension(name) in ExtensionsOf(r.value)
    ensures r.None? ==> LowerExtension(name) !in ExtensionsOf(Jpeg) + ExtensionsOf(Png) + ExtensionsOf(Gif)
  {
    FormatOf(LowerExtension(name))
  }

  /** Classification looks only at the text after the final dot of the
      name, and ignores its letter case. */
  lemma ClassifyByLastDot(f: string, e: string)
    requires '/' !in f && '/' !in e && '.' !in e
    ensures LowerExtension(f + "." + e) == Lower(e)
    ensures Classify(f + "." + e) == FormatOf(Lower(e))
  {
    SplitOfJoined(f, e);
  }

  /** A name without a dot has the empty extension and is never supported. */
  lemma NoDotUnsupported(name: string)
    requires '.' !in name && '/' !in name
    ensures LowerExtension(name) == ""
    ensures Classify(name) == None
  {
    BasenameOfPlainName(name);
    LastIndexSpec(name, '.');
  }
}

=== FILE: gd.dfy ===
/** The image work of the controller, over the GD library left abstract.
    The library's calls are handed in as functions: the model fixes only
    how the controller wires them together and the one thing it relies on,
    that an image has a width and a height. Pixel content is a type
    parameter the model never looks into. */
module Gd {
  import opened Formats

  type Bytes = seq<bv8>

  /** A GD image resource: its size and its pixels. */
  datatype Image<P> = Image(width: int, height: int, pixels: P)

  /** The GD entry points the controller calls:
      `probe` is getimagesize (the stored size of an image file),
      `decode` is imagecreatefromjpeg/png/gif,
      `blank` is the pixel content of a fresh imagecreatetruecolor canvas,
      `resample` is imagecopyresampled (the new pixels of the destination,
      given destination, source and the four sizes), and
      `encode` is imagejpeg/png/gif. */
  datatype Library<!P> = Library(
    probe: Bytes -> (int, int),
    decode: (Format, Bytes) -> Image<P>,
    blank: P,
    resample: (Image<P>, Image<P>, int, int, int, int) -> P,
    encode: (Format, Image<P>) -> Bytes)

  /** The outcome of resizing one file: the image handed to the encoder
      and the bytes the encoder produced from it. */
  datatype Rendering<P> = Rendering(image: Image<P>, bytes: Bytes)

  /** imagecreatetruecolor(w, h). */
  function NewCanvas<P>(lib: Library<P>, w: int, h: int): Image<P> {
    Image(w, h, lib.blank)
  }

  /** imagecopyresampled into `dst`: it repaints the destination and never
      changes its size, whatever the size of the source. */
  function CopyResampled<P>(lib: Library<P>, dst: Image<P>, src: Image<P>,
                            dw: int, dh: int, sw: int, sh: int): (r: Image<P>)
    ensures r.width == dst.width && r.height == dst.height
  {
    dst.(pixels := lib.resample(dst, src, dw, dh, sw, sh))
  }

  /** Decode `content` as `format`, draw it stretched over a fresh w x h
      canvas and encode the canvas in the same format. The image handed to
      the encoder is exactly w x h, whatever the size or aspect ratio of
      the original; its pixels are the decoded original resampled from its
      stored size onto the blank canvas; and the bytes are that image
      encoded in the format the file was decoded with. No return value of
      GD is checked, so there is no failure case. */
  function Resize<P>(lib: Library<P>, format: Format, content: Bytes, w: int, h: int): (r: Rendering<P>)
    ensures r.image.width == w && r.image.height == h
    ensures r.image.pixels == lib.resample(NewCanvas(lib, w, h), lib.decode(format, content),
                                           w, h, lib.probe(content).0, lib.probe(content).1)
    ensures r.bytes == lib.encode(format, r.image)
  {
    var (sw, sh) := lib.probe(content);
    var src := lib.decode(format, content);
    var out := CopyResampled(lib, NewCanvas(lib, w, h), src, w, h, sw, sh);
    Rendering(out, lib.encode(format, out))
  }
}

=== FILE: naming.dfy ===
/** Where the controller puts files, and what it calls the resized copy:
    the upload goes to "uploads/<original name>", the copy is named
    "<file name>_resized.<lower-case extension>" and lives under
    "uploads/resized/". Paths are relative to the controller's directory. */
module Naming {
  import opened Text
  import opened PathInfo
  import opened Formats

  const UploadDir: string := "uploads/"
  const ResizedDir: string := "uploads/resized/"
  const ResizedSuffix: string := "_resized"

  /** The name of the resized copy of `name`: it starts with the file
      name, case kept, and ends with the lower-cased extension. */
  function ResizedName(name: string): (r: string)
    ensures |r| > |Filename(name)| + |LowerExtension(name)|
    ensures r[..|Filename(name)|] == Filename(name)
    ensures r[|r| - |LowerExtension(name)|..] == LowerExtension(name)
  {
    Filename(name) + ResizedSuffix + "." + LowerExtension(name)
  }

  /** Where the upload of `name` is moved to: inside "uploads/", under
      its own name when that name is a plain file name. */
  function UploadPath(name: string): (r: string)
    ensures |r| >= |UploadDir| && r[..|UploadDir|] == UploadDir
    ensures |name| > 0 && '/' !in name ==> Basename(r) == name
  {
    if |name| > 0 && '/' !in name then
      InsideDirectory(UploadDir, "uploads", name);
      UploadDir + name
    else UploadDir + name
  }

  /** Where the resized copy of `name` is written, and the path reported
      back to the client. */
  function ResizedPath(name: string): (r: string)
    ensures |r| > |ResizedDir| && r[..|ResizedDir|] == ResizedDir
    ensures Basename(r) == ResizedName(name)
  {
    ResizedNamePlain(name);
    InsideDirectory(ResizedDir, "uploads/resized", ResizedName(name));
    ResizedDir + ResizedName(name)
  }

  /** Read back through `pathinfo`, the resized name is its own base name,
      its extension is the original's lower-cased extension and its file
      name is the original file name with "_resized" appended. */
  lemma {:induction false} ResizedNameParts(name: string)
    ensures Basename(ResizedName(name)) == ResizedName(name)
    ensures Extension(ResizedName(name)) == LowerExtension(name)
    ensures Filename(ResizedName(name)) == Filename(name) + ResizedSuffix
    ensures '/' !in ResizedName(name)
  {
    var f := Filename(name) + ResizedSuffix;
    var e := LowerExtension(name);
    PartsSpec(name);
    LowerExtensionSpec(name);
    assert ResizedName(name) == f + "." + e;
    assert '/' !in f by {
      forall j | 0 <= j < |f| ensures f[j] != '/' {
        if j < |Filename(name)| { assert f[j] == Filename(name)[j]; }
        else { assert f[j] == ResizedSuffix[j - |Filename(name)|]; }
      }
    }
    SplitOfJoined(f, e);
  }

  /** The resized copy keeps the format of the original: its name selects
      the same encoder the original's name selected. */
  lemma ResizedKeepsFormat(name: string)
    ensures LowerExtension(ResizedName(name)) == LowerExtension(name)
    ensures Classify(ResizedName(name)) == Classify(name)
  {
    ResizedNameParts(name);
    LowerExtensionSpec(name);
    LowerOfNoUpper(LowerExtension(name));
  }

  /** For a name `f.e` with no '/' and no dot in `e`, the resized name is
      `f` with its case kept, then "_resized.", then `e` lower-cased:
      "Photo.JPG" becomes "Photo_resized.jpg". */
  lemma ResizedNameOfJoined(f: string, e: string)
    requires '/' !in f && '/' !in e && '.' !in e
    ensures ResizedName(f + "." + e) == f + "_resized." + Lower(e)
  {
    SplitOfJoined(f, e);
    ClassifyByLastDot(f, e);
  }

  /** The resized name is never empty and never holds a '/'. */
  lemma ResizedNamePlain(name: string)
    ensures |ResizedName(name)| > 0 && '/' !in ResizedName(name)
  {
    ResizedNameParts(name);
    assert ResizedName(name) == Filename(name) + ResizedSuffix + "." + LowerExtension(name);
  }

  /** A name without '/' placed inside directory `d/` is a file of that
      directory whose base name is the name itself. */
  lemma InsideDirectory(dir: string, d: string, r: string)
    requires dir == d + "/"
    requires |r| > 0 && '/' !in r
    ensures |dir + r| > |dir| && (dir + r)[..|dir|] == dir
    ensures Basename(dir + r) == r
  {
    assert dir + r == d + "/" + r;
    BasenameAfterSlash(d, r);
  }

  /** A plain uploaded name is moved directly into "uploads/", never onto
      a path inside "uploads/resized/": the move of an upload cannot
      replace a resized copy written earlier in the batch. */
  lemma UploadNeverResized(name: string, other: string)
    requires '/' !in name
    ensures UploadPath(name) != ResizedPath(other)
  {
    var u := UploadPath(name);
    var r := ResizedPath(other);
    if |u| == |r| {
      assert name[7] in name;
      assert u[15] == name[7] && r[15] == '/';
    }
  }

  /** Two names that differ only in the letter case of their extension
      ("a.jpg" and "a.JPG") get the same resized path, so the second
      resized copy is written over the first. */
  lemma SameResizedPath(f: string, e: string, e2: string)
    requires '/' !in f && '/' !in e && '.' !in e && '/' !in e2 && '.' !in e2
    requires Lower(e) == Lower(e2)
    ensures ResizedPath(f + "." + e) == ResizedPath(f + "." + e2)
  {
    ResizedNameOfJoined(f, e);
    ResizedNameOfJoined(f, e2);
  }
}

=== FILE: pathinfo.dfy ===
/** PHP's `pathinfo` as the controller uses it: the base name (the last
    path component, trailing slashes ignored), the extension (the text
    after the last '.' of the base name, empty when there is none) and the
    file name (the base name without that final ".extension"). */
module PathInfo {
  import opened Text

  /** The path with every trailing '/' removed. */
  function TrimTrailingSlashes(p: string): string {
    if |p| > 0 && p[|p| - 1] == '/' then TrimTrailingSlashes(p[..|p| - 1]) else p
  }

  /** `basename`: the component after the last '/', once trailing slashes
      are gone. */
  function Basename(p: string): string {
    var t := TrimTrailingSlashes(p);
    t[LastIndex(t, '/') + 1..]
  }

  /** `pathinfo($p, PATHINFO_EXTENSION)`: empty, or shorter than the base
      name by at least the dot in front of it. */
  function Extension(p: string): (e: string)
    ensures e == "" || |e| < |Basename(p)|
  {
    var b := Basename(p);
    var k := LastIndex(b, '.');
    if k < 0 then "" else b[k + 1..]
  }

  /** `pathinfo($p, PATHINFO_FILENAME)`: the whole base name, or exactly
      as much of it as the dot and the extension leave. */
  function Filename(p: string): (f: string)
    ensures f == Basename(p) || |f| + 1 + |Extension(p)| == |Basename(p)|
  {
    var b := Basename(p);
    var k := LastIndex(b, '.');
    if k < 0 then b else b[..k]
  }

  /** A suffix of a string without `c` holds no `c` either. */
  lemma SuffixWithout(s: string, k: nat, c: char)
    requires k <= |s| && c !in s
    ensures c !in s[k..]
  {
  }

  /** The text after the last `c` holds no `c`. */
  lemma AfterLastWithout(s: string, c: char)
    ensures c !in s[LastIndex(s, c) + 1..]
  {
    LastIndexSpec(s, c);
  }

  /** The text before position `k` of a string without `c` holds no `c`. */
  lemma PrefixWithout(s: string, k: nat, c: char)
    requires k <= |s| && c !in s
    ensures c !in s[..k]
  {
  }

  /** The base name holds no '/', the extension neither '/' nor '.', and
      the file name no '/'. */
  lemma PartsSpec(p: string)
    ensures '/' !in Basename(p)
    ensures '/' !in Extension(p) && '.' !in Extension(p)
    ensures '/' !in Filename(p)
  {
    var t := TrimTrailingSlashes(p);
    AfterLastWithout(t, '/');
    var b := Basename(p);
    var k := LastIndex(b, '.');
    if k >= 0 {
      AfterLastWithout(b, '.');
      SuffixWithout(b, k + 1, '/');
      PrefixWithout(b, k, '/');
    }
  }

  /** The split is lossless: the base name is the file name followed by
      "." and the extension when it holds a dot, and the file name alone
      when it does not. */
  lemma SplitRoundTrip(p: string)
    ensures '.' in Basename(p) ==> Basename(p) == Filename(p) + "." + Extension(p)
    ensures '.' !in Basename(p) ==> Basename(p) == Filename(p) && Extension(p) == ""
  {
    var b := Basename(p);
    var k := LastIndex(b, '.');
    LastIndexSpec(b, '.');
    if k >= 0 {
      assert b == b[..k] + "." + b[k + 1..];
    }
  }

  /** A name without any '/' is its own base name: uploaded file names
      reach the controller in that form. */
  lemma BasenameOfPlainName(n: string)
    requires '/' !in n
    ensures Basename(n) == n
  {
    assert TrimTrailingSlashes(n) == n by {
      if |n| > 0 { assert n[|n| - 1] in n; }
    }
    LastIndexSpec(n, '/');
  }

  /** The base name of `d/r` is `r` when `r` is a non-empty name without
      '/'. */
  lemma BasenameAfterSlash(d: string, r: string)
    requires |r| > 0 && '/' !in r
    ensures Basename(d + "/" + r) == r
  {
    var p := d + "/" + r;
    assert p[|p| - 1] == r[|r| - 1];
    assert TrimTrailingSlashes(p) == p;
    LastIndexAfter(d, '/', r);
    assert p[|d| + 1..] == r;
  }

  /** For a plain name `f + "." + e` whose extension part `e` holds no
      dot, `pathinfo` splits exactly at that dot. */
  lemma {:induction false} SplitOfJoined(f: string, e: string)
    requires '/' !in f && '/' !in e && '.' !in e
    ensures Basename(f + "." + e) == f + "." + e
    ensures Extension(f + "." + e) == e
    ensures Filename(f + "." + e) == f
  {
    var n := f + "." + e;
    assert '/' !in n by {
      forall j | 0 <= j < |n| ensures n[j] != '/' {
        if j < |f| { assert n[j] == f[j]; }
        else if j > |f| { assert n[j] == e[j - |f| - 1]; }
      }
    }
    BasenameOfPlainName(n);
    LastIndexAfter(f, '.', e);
    assert n[..|f|] == f;
    assert n[|f| + 1..] == e;
  }
}

=== FILE: phpint.dfy ===
/** PHP's `intval` applied to a form field (a string), on a 64-bit build,
    following PHP 8's reading of a leading-numeric string. Leading white
    space is skipped and an optional sign taken. What follows decides the
    rest:
    - a run of decimal digits, not continued by a fraction or an exponent,
      is an integer: kept when it fits 64 bits, otherwise converted to the
      nearest double and capped (the bound of its sign, or 0 once the
      double overflows to infinity);
    - a fraction ('.' then a digit, or digits then '.') or an exponent
      ('e'/'E', then a digit, possibly behind a sign) makes it a
      floating-point number, whose conversion is handed in as a function;
    - anything else gives 0. Text after the number is ignored. */
module PhpInt {

  const IntMax: int := 0x7FFF_FFFF_FFFF_FFFF
  const IntMin: int := -0x8000_0000_0000_0000

  /** 2^1024 - 2^970: the least integer whose correctly rounded double is
      infinite (it lies halfway between the largest finite double and
      2^1024, and rounds to the even side). */
  const DoubleOverflow: int := 0xFFFFFFFFFFFFFC00_0000000000000000_0000000000000000_0000000000000000_0000000000000000_0000000000000000_0000000000000000_0000000000000000_0000000000000000_0000000000000000_0000000000000000_0000000000000000_0000000000000000_0000000000000000_0000000000000000_0000000000000000

  /** The white space PHP skips before a number: space, tab, line feed,
      carriage return, vertical tab and form feed. */
  predicate IsSpace(c: char) {
    c == ' ' || c == '\t' || c == '\n' || c == '\r' || c as int == 11 || c as int == 12
  }

  predicate IsDigit(c: char) {
    '0' <= c <= '9'
  }

  predicate AllDigits(d: string) {
    forall i :: 0 <= i < |d| ==> IsDigit(d[i])
  }

  function SkipSpace(s: string): (t: string)
    ensures |t| <= |s| && t == s[|s| - |t|..]
    ensures |t| > 0 ==> !IsSpace(t[0])
  {
    if |s| > 0 && IsSpace(s[0]) then SkipSpace(s[1..]) else s
  }

  /** The text after an optional leading sign. */
  function Unsigned(t: string): string {
    if |t| > 0 && (t[0] == '-' || t[0] == '+') then t[1..] else t
  }

  /** The longest prefix of `s` made of decimal digits. */
  function DigitPrefix(s: string): (d: string)
    ensures |d| <= |s| && d == s[..|d|]
    ensures AllDigits(d)
    ensures |d| < |s| ==> !IsDigit(s[|d|])
  {
    if |s| > 0 && IsDigit(s[0]) then [s[0]] + DigitPrefix(s[1..]) else ""
  }

  /** The number a string of decimal digits denotes. */
  function DigitsValue(d: string): nat
    requires AllDigits(d)
  {
    if |d| == 0 then 0
    else DigitsValue(d[..|d| - 1]) * 10 + (d[|d| - 1] as int - '0' as int)
  }

  /** What may follow an exponent marker for it to belong to the number:
      a digit, possibly behind a sign. */
  predicate ExponentFollows(x: string) {
    || (|x| > 0 && IsDigit(x[0]))
    || (|x| > 1 && (x[0] == '+' || x[0] == '-') && IsDigit(x[1]))
  }

  /** Text that, right after a digit run, makes the number a
      floating-point one: a '.', or an exponent marker with its exponent. */
  predicate ContinuesAsFloat(r: string) {
    |r| > 0 && (r[0] == '.' || ((r[0] == 'e' || r[0] == 'E') && ExponentFollows(r[1..])))
  }

  /** Text after a digit run that ends the number there. */
  predicate EndsNumber(r: string) {
    (|r| == 0 || !IsDigit(r[0])) && !ContinuesAsFloat(r)
  }

  /** Unsigned text that starts a floating-point number. */
  predicate IsFloatText(u: string) {
    || (|u| > 1 && u[0] == '.' && IsDigit(u[1]))
    || (|DigitPrefix(u)| > 0 && ContinuesAsFloat(u[|DigitPrefix(u)|..]))
  }

  /** Capping to the 64-bit range. */
  function Saturate(n: int): (r: int)
    ensures IntMin <= r <= IntMax
  {
    if n > IntMax then IntMax else if n < IntMin then IntMin else n
  }

  /** The integer PHP keeps for an integer literal of value `n`: `n`
      itself when it fits; otherwise its double, capped to the bound of
      its sign, or 0 when that double is infinite. */
  function Capped(n: int): (r: int)
    ensures IntMin <= r <= IntMax
  {
    if n >= DoubleOverflow || n <= -DoubleOverflow then 0 else Saturate(n)
  }

  /** The value of the digit run at the start of `t`; 0 when there is none. */
  function Magnitude(t: string): nat {
    DigitsValue(DigitPrefix(t))
  }

  /** The integer an optional sign and a digit run at the start of `t`
      denote, before capping. */
  function LeadingInteger(t: string): int {
    var m := Magnitude(Unsigned(t));
    if |t| > 0 && t[0] == '-' then -(m as int) else m
  }

  /** `intval($s)` for a string `$s`. `floatValue` is PHP's conversion
      of a floating-point numeral (the text from its sign on) to an
      integer: `zend_strtod` followed by the cap to the integer range. */
  function IntVal(s: string, floatValue: string -> int): (n: int)
    ensures IntMin <= n <= IntMax
  {
    var t := SkipSpace(s);
    if IsFloatText(Unsigned(t)) then Saturate(floatValue(t))
    else Capped(LeadingInteger(t))
  }

  /** Decimal rendering of a natural number, most significant digit first,
      without leading zeros: the reference the reader is checked against. */
  function Decimal(n: nat): (d: string)
    ensures |d| > 0 && AllDigits(d)
  {
    if n < 10 then [('0' as int + n) as char]
    else Decimal(n / 10) + [('0' as int + n % 10) as char]
  }

  lemma {:induction false} DigitsValueOfDecimal(n: nat)
    ensures DigitsValue(Decimal(n)) == n
  {
    if n >= 10 {
      var d := Decimal(n);
      assert d[..|d| - 1] == Decimal(n / 10);
      DigitsValueOfDecimal(n / 10);
    }
  }

  /** The digit run stops exactly where the digits stop. */
  lemma {:induction false} DigitPrefixOfDigits(d: string, rest: string)
    requires AllDigits(d)
    requires |rest| == 0 || !IsDigit(rest[0])
    ensures DigitPrefix(d + rest) == d
  {
    if |d| > 0 {
      assert (d + rest)[1..] == d[1..] + rest;
      DigitPrefixOfDigits(d[1..], rest);
    } else {
      assert d + rest == rest;
    }
  }

  /** Text that starts with a digit or a sign has no white space to skip. */
  lemma NothingToSkip(t: string)
    requires |t| > 0 && (IsDigit(t[0]) || t[0] == '-' || t[0] == '+')
    ensures SkipSpace(t) == t
  {
  }

  /** A digit run followed by text that ends the number: the text is no
      floating-point numeral, and its digit run is `d`. */
  lemma DigitsThenEnd(d: string, rest: string)
    requires |d| > 0 && AllDigits(d) && EndsNumber(rest)
    ensures Unsigned(d + rest) == d + rest
    ensures DigitPrefix(d + rest) == d
    ensures !IsFloatText(d + rest)
  {
    DigitPrefixOfDigits(d, rest);
    assert (d + rest)[|d|..] == rest;
  }

  /** With no white space in front and no floating-point numeral,
      `intval` caps the leading integer. */
  lemma ReadUnspaced(t: string, v: int, f: string -> int)
    requires SkipSpace(t) == t && !IsFloatText(Unsigned(t)) && LeadingInteger(t) == v
    ensures IntVal(t, f) == Capped(v)
  {
  }

  /** A digit run followed by text that ends the number reads as the
      capped value `v` of the digits, alone or behind a sign. */
  lemma ReadDigits(d: string, rest: string, v: nat, f: string -> int)
    requires |d| > 0 && AllDigits(d) && DigitsValue(d) == v && EndsNumber(rest)
    ensures IntVal(d + rest, f) == Capped(v)
    ensures IntVal("+" + (d + rest), f) == Capped(v)
    ensures IntVal("-" + (d + rest), f) == Capped(-(v as int))
  {
    var t := d + rest;
    DigitsThenEnd(d, rest);
    assert t[0] == d[0];
    NothingToSkip(t);
    ReadUnspaced(t, v, f);
    SignedDigits(t, v, f);
  }

  /** Behind a sign, a numeral that is not a floating-point one reads as
      its magnitude, negated for '-'. */
  lemma SignedDigits(t: string, v: nat, f: string -> int)
    requires Unsigned(t) == t && !IsFloatText(t) && Magnitude(t) == v
    ensures IntVal("+" + t, f) == Capped(v)
    ensures IntVal("-" + t, f) == Capped(-(v as int))
  {
    assert Unsigned("+" + t) == t;
    assert Unsigned("-" + t) == t;
    NothingToSkip("+" + t);
    NothingToSkip("-" + t);
    ReadUnspaced("+" + t, v, f);
    ReadUnspaced("-" + t, -(v as int), f);
  }

  /** The three regimes of `Capped` for a non-negative value and its
      negation. */
  lemma CappedRegimes(n: nat)
    ensures n <= IntMax ==> Capped(n) == n
    ensures IntMax < n < DoubleOverflow ==> Capped(n) == IntMax
    ensures n >= DoubleOverflow ==> Capped(n) == 0
    ensures n <= -IntMin ==> Capped(-(n as int)) == -(n as int)
    ensures -IntMin < n < DoubleOverflow ==> Capped(-(n as int)) == IntMin
    ensures n >= DoubleOverflow ==> Capped(-(n as int)) == 0
  {
  }

  /** Round trip: reading back the decimal rendering of a number gives the
      number when it fits 64 bits, also behind a sign and also when text
      that ends the number follows ("600px" reads as 600). Past the 64-bit
      range it reads as the bound of its sign, and from the double
      overflow on as 0. */
  lemma ReadDecimal(n: nat, rest: string, f: string -> int)
    requires EndsNumber(rest)
    ensures n <= IntMax ==> IntVal(Decimal(n) + rest, f) == n
    ensures IntMax < n < DoubleOverflow ==> IntVal(Decimal(n) + rest, f) == IntMax
    ensures n >= DoubleOverflow ==> IntVal(Decimal(n) + rest, f) == 0
    ensures IntVal("+" + (Decimal(n) + rest), f) == IntVal(Decimal(n) + rest, f)
    ensures n <= -IntMin ==> IntVal("-" + (Decimal(n) + rest), f) == -(n as int)
    ensures -IntMin < n < DoubleOverflow ==> IntVal("-" + (Decimal(n) + rest), f) == IntMin
    ensures n >= DoubleOverflow ==> IntVal("-" + (Decimal(n) + rest), f) == 0
  {
    DigitsValueOfDecimal(n);
    ReadDigits(Decimal(n), rest, n, f);
    CappedRegimes(n);
  }

  /** A number whose digits run on into a fraction or an exponent ("1.5",
      "2e3", "600.0") is read as a floating-point numeral. */
  lemma ReadDecimalThenFloat(n: nat, rest: string, f: string -> int)
    requires ContinuesAsFloat(rest)
    ensures IntVal(Decimal(n) + rest, f) == Saturate(f(Decimal(n) + rest))
  {
    var d := Decimal(n);
    assert !IsDigit(rest[0]);
    DigitPrefixOfDigits(d, rest);
    assert (d + rest)[|d|..] == rest;
    assert (d + rest)[0] == d[0];
    NothingToSkip(d + rest);
  }

  /** A leading '.' followed by a digit (".5e3", "-.5") starts a
      floating-point numeral as well. */
  lemma LeadingDotIsFloat(u: string, f: string -> int)
    requires |u| > 1 && u[0] == '.' && IsDigit(u[1])
    ensures IntVal(u, f) == Saturate(f(u))
    ensures IntVal("-" + u, f) == Saturate(f("-" + u))
  {
    assert Unsigned("-" + u) == u;
  }

  /** Leading white space does not change the value read. */
  lemma SkipsLeadingSpace(c: char, s: string, f: string -> int)
    requires IsSpace(c)
    ensures IntVal([c] + s, f) == IntVal(s, f)
  {
    assert ([c] + s)[1..] == s;
  }

  /** After white space and an optional sign, the text starts neither with
      a digit nor with a '.' followed by a digit. */
  predicate NoLeadingNumber(s: string) {
    var u := Unsigned(SkipSpace(s));
    && !(|u| > 0 && IsDigit(u[0]))
    && !(|u| > 1 && u[0] == '.' && IsDigit(u[1]))
  }

  /** Text without a leading number reads as 0, whatever the float
      conversion: "abc", "", "px600", "-x" and "." all give 0, not a
      default. */
  lemma NonNumericIsZero(s: string, f: string -> int)
    requires NoLeadingNumber(s)
    ensures IntVal(s, f) == 0
  {
  }
}

=== FILE: properties.dfy ===
/** What the controller promises its clients, stated over whole requests:
    which error wins, what the size fields mean, when the batch fails, and
    what a successful reply contains. */
module ControllerProperties {
  import opened Wrappers
  import opened Text
  import opened PhpInt
  import opened Formats
  import opened Naming
  import opened Controller

  /** A preflight request gets an empty reply; any method other than POST
      is refused before anything else is looked at. */
  lemma MethodGuard<P>(req: Request, host: Host<P>)
    ensures req.verb == "OPTIONS" ==> Handle(req, host).response == Preflight
    ensures req.verb != "OPTIONS" && req.verb != "POST" ==>
      Handle(req, host).response == Failure(InvalidMethod)
    ensures req.verb != "POST" ==> Handle(req, host).written == []
  {
  }

  /** A POST without files fails with "No images received", whatever the
      size fields say and whatever the host would do. */
  lemma NoImagesFirst<P>(req: Request, host: Host<P>)
    requires req.verb == "POST" && |Items(req)| == 0
    ensures Handle(req, host).response == Failure(NoImages)
    ensures Handle(req, host).written == []
  {
  }

  /** A size that reads as zero or less fails the request with "Invalid
      width or height" before any directory is made or any file moved:
      the reply is the same on every host that reads numbers the same way,
      and nothing is written. */
  lemma InvalidSizeBeforeMoves<P>(req: Request, host: Host<P>, other: Host<P>)
    requires req.verb == "POST" && |Items(req)| > 0
    requires other.floatToInt == host.floatToInt
    requires RequestedWidth(req, host) <= 0 || RequestedHeight(req, host) <= 0
    ensures Handle(req, host).response == Failure(InvalidSize)
    ensures Handle(req, host).response == Handle(req, other).response
    ensures Handle(req, host).written == []
  {
  }

  /** A size field that is present but holds no number is read as 0, not
      replaced by the default, so the request fails. */
  lemma NonNumericSizeRejected<P>(req: Request, host: Host<P>, s: string)
    requires req.verb == "POST" && |Items(req)| > 0
    requires req.width == Some(s) || req.height == Some(s)
    ensures NoLeadingNumber(s) ==> Handle(req, host).response == Failure(InvalidSize)
  {
    if NoLeadingNumber(s) {
      NonNumericIsZero(s, host.floatToInt);
    }
  }

  /** A size written as a run of digits too large for a double (from
      2^1024 - 2^970 on) reads as 0, so the request fails too. */
  lemma HugeSizeRejected<P>(req: Request, host: Host<P>, n: nat)
    requires req.verb == "POST" && |Items(req)| > 0
    requires req.width == Some(Decimal(n)) || req.height == Some(Decimal(n))
    requires n >= DoubleOverflow
    ensures Handle(req, host).response == Failure(InvalidSize)
  {
    ReadDecimal(n, "", host.floatToInt);
    assert Decimal(n) + "" == Decimal(n);
  }

  /** Absent size fields mean 600 wide and 800 high: such a request passes
      the size guard and every image handed to the encoder is 600 x 800. */
  lemma AbsentSizeUsesDefaults<P>(req: Request, host: Host<P>)
    requires req.width.None? && req.height.None?
    ensures RequestedWidth(req, host) == DefaultWidth && RequestedHeight(req, host) == DefaultHeight
    ensures !SizeRejected(RequestedWidth(req, host), RequestedHeight(req, host))
    ensures AllSized(Handle(req, host).written, 600, 800)
  {
  }

  /** The directories are checked after the size and before any move. */
  lemma DirectoryGuards<P>(req: Request, host: Host<P>)
    requires req.verb == "POST" && |Items(req)| > 0
    requires RequestedWidth(req, host) > 0 && RequestedHeight(req, host) > 0
    ensures !host.uploadDirReady ==> Handle(req, host).response == Failure(UploadDirFailed)
    ensures host.uploadDirReady && !host.resizedDirReady ==>
      Handle(req, host).response == Failure(ResizedDirFailed)
  {
  }

  /** One upload that cannot be moved fails the whole batch with "Failed
      to move uploaded file" and no results, even when that upload has an
      unsupported extension and would have been skipped. */
  lemma MoveFailureAborts<P>(req: Request, host: Host<P>, i: int)
    requires GuardsPass(req, host)
    requires 0 <= i < |Items(req)| && !Moves(Items(req)[i], host)
    ensures Handle(req, host).response == Failure(MoveFailed)
  {
  }

  /** A batch in which every upload moved but none is supported fails with
      "Image processing failed" and writes nothing. */
  lemma NothingSupportedFails<P>(req: Request, host: Host<P>)
    requires GuardsPass(req, host) && AllMoved(Items(req), host)
    requires forall i :: 0 <= i < |Items(req)| ==> !IsSupported(Items(req)[i])
    ensures Handle(req, host).response == Failure(ProcessingFailed)
    ensures Handle(req, host).written == []
  {
    SupportedNone(Items(req));
  }

  lemma {:induction false} SupportedNone(items: seq<Upload>)
    requires forall i :: 0 <= i < |items| ==> !IsSupported(items[i])
    ensures Supported(items) == []
  {
    if |items| > 0 {
      assert !IsSupported(items[0]);
      SupportedNone(items[1..]);
    }
  }

  /** A successful reply has one entry per supported upload, in upload
      order: the k-th entry carries the k-th supported upload's name
      unchanged, its resized name, and a path inside the resized-images
      directory ending in that name. */
  lemma SuccessEntries<P>(req: Request, host: Host<P>)
    ensures Handle(req, host).response.Success? ==>
      var rs := Handle(req, host).response.results;
      var s := Supported(Items(req));
      && 0 < |rs| == |s| <= |Items(req)|
      && forall k :: 0 <= k < |rs| ==>
        && rs[k].originalName == s[k].name
        && IsSupported(s[k])
        && rs[k].resizedName == ResizedName(s[k].name)
        && rs[k].path == ResizedDir + rs[k].resizedName
  {
    if Handle(req, host).response.Success? {
      var s := Supported(Items(req));
      var rs := Handle(req, host).response.results;
      assert rs == EntriesFor(s);
      forall k | 0 <= k < |rs|
        ensures rs[k].originalName == s[k].name && IsSupported(s[k])
        ensures rs[k].resizedName == ResizedName(s[k].name)
        ensures rs[k].path == ResizedDir + rs[k].resizedName
      {
        assert s[k] in s;
        EntryShape(s[k], rs[k]);
      }
    }
  }

  /** The entry for an upload: its name, its resized name, and that name
      under "uploads/resized/". */
  lemma EntryShape(x: Upload, e: Entry)
    requires e == EntryFor(x)
    ensures e.originalName == x.name && e.resizedName == ResizedName(x.name)
    ensures e.path == ResizedDir + e.resizedName
  {
  }

  /** A single upload is kept by the filter exactly when it is supported;
      with `SupportedAppend` this fixes the filter on every batch. */
  lemma SupportedSingle(x: Upload)
    ensures IsSupported(x) ==> Supported([x]) == [x]
    ensures !IsSupported(x) ==> Supported([x]) == []
  {
  }

  /** The file name `f.jpg` selects JPEG and has the resized name
      `f_resized.jpg`. */
  lemma JpegName(f: string)
    requires '/' !in f
    ensures Classify(f + ".jpg") == Some(Jpeg)
    ensures ResizedName(f + ".jpg") == f + "_resized.jpg"
  {
    assert f + ".jpg" == f + "." + "jpg";
    assert Lower("jpg") == "jpg";
    ClassifyByLastDot(f, "jpg");
    ResizedNameOfJoined(f, "jpg");
    assert f + "_resized." + "jpg" == f + "_resized.jpg";
  }

  /** A request whose single upload moves and is supported succeeds with
      that upload's entry and writes one file of the requested size in
      the upload's format. */
  lemma SingleUpload<P>(req: Request, host: Host<P>, x: Upload)
    requires GuardsPass(req, host) && req.images == Some([x])
    requires Moves(x, host) && IsSupported(x)
    ensures Handle(req, host).response == Success([EntryFor(x)])
    ensures |Handle(req, host).written| == 1
    ensures Classify(x.name) == Some(Handle(req, host).written[0].format)
    ensures Handle(req, host).written[0].image.width == RequestedWidth(req, host)
    ensures Handle(req, host).written[0].image.height == RequestedHeight(req, host)
    ensures Handle(req, host).written[0] == StoredFor(x, RequestedWidth(req, host), RequestedHeight(req, host), host)
  {
    SupportedSingle(x);
    assert EntriesFor([x]) == [EntryFor(x)];
    assert AllMoved([x], host);
  }

  /** Sizes written as decimal numbers are read back as those numbers. */
  lemma DecimalSizes<P>(req: Request, host: Host<P>, w: nat, h: nat)
    requires w <= IntMax && h <= IntMax
    requires req.width == Some(Decimal(w)) && req.height == Some(Decimal(h))
    ensures RequestedWidth(req, host) == w && RequestedHeight(req, host) == h
  {
    ReadDecimal(w, "", host.floatToInt);
    ReadDecimal(h, "", host.floatToInt);
    assert Decimal(w) + "" == Decimal(w) && Decimal(h) + "" == Decimal(h);
  }

  /** The entry reported for an upload named `f.jpg`. */
  lemma JpegEntry(x: Upload, f: string)
    requires '/' !in f && x.name == f + ".jpg"
    ensures IsSupported(x) && Classify(x.name) == Some(Jpeg)
    ensures EntryFor(x) == Entry(f + ".jpg", f + "_resized.jpg", ResizedDir + f + "_resized.jpg")
  {
    JpegName(f);
    assert ResizedDir + (f + "_resized.jpg") == ResizedDir + f + "_resized.jpg";
  }

  /** Scenario: one file `f.jpg`, sizes given as decimal numbers. The
      reply lists `f.jpg` with resized name `f_resized.jpg` under
      "uploads/resized/", and the one file written is a JPEG of exactly
      the requested size. */
  lemma SingleJpegScenario<P>(req: Request, x: Upload, f: string, w: nat, h: nat, host: Host<P>)
    requires '/' !in f && x.name == f + ".jpg"
    requires 0 < w <= IntMax && 0 < h <= IntMax
    requires req == Request("POST", Some([x]), Some(Decimal(w)), Some(Decimal(h)))
    requires host.uploadDirReady && host.resizedDirReady && Moves(x, host)
    ensures Handle(req, host).response == Success([Entry(f + ".jpg", f + "_resized.jpg", ResizedDir + f + "_resized.jpg")])
    ensures |Handle(req, host).written| == 1
    ensures Handle(req, host).written[0].format == Jpeg
    ensures Handle(req, host).written[0].image.width == w
    ensures Handle(req, host).written[0].image.height == h
  {
    DecimalSizes(req, host, w, h);
    JpegEntry(x, f);
    SingleUpload(req, host, x);
  }

  /** Filtering a supported upload followed by an unsupported one keeps
      the first only. */
  lemma SupportedPair(a: Upload, b: Upload)
    ensures IsSupported(a) && !IsSupported(b) ==> Supported([a] + [b]) == [a]
  {
    SupportedAppend([a], [b]);
    SupportedSingle(a);
    SupportedSingle(b);
  }

  /** Scenario: a supported file followed by an unsupported one, both
      moved: the reply lists the first file only. */
  lemma MixedBatchScenario<P>(req: Request, host: Host<P>, a: Upload, b: Upload)
    requires GuardsPass(req, host) && req.images == Some([a] + [b])
    requires Moves(a, host) && Moves(b, host)
    ensures IsSupported(a) && !IsSupported(b) ==> Handle(req, host).response == Success([EntryFor(a)])
  {
    SupportedPair(a, b);
    EntriesForSingle(a);
    AllMovedPair(a, b, host);
  }

  lemma EntriesForSingle(a: Upload)
    ensures EntriesFor([a]) == [EntryFor(a)]
  {
  }

  lemma AllMovedPair<P>(a: Upload, b: Upload, host: Host<P>)
    requires Moves(a, host) && Moves(b, host)
    ensures AllMoved([a] + [b], host)
  {
  }
}

=== FILE: text.dfy ===
/** Small string toolkit shared by the path, number and name code:
    ASCII lower-casing as PHP 8's `strtolower` does it,
    and a last-occurrence search in the style of `strrpos`/`memrchr`. */
module Text {

  /** True for the 26 upper-case ASCII letters, the only characters
      `strtolower` changes. */
  predicate IsUpper(c: char) {
    'A' <= c <= 'Z'
  }

  function LowerChar(c: char): char {
    if IsUpper(c) then (c as int + 32) as char else c
  }

  /** `strtolower`: locale-independent ASCII lower-casing. */
  function Lower(s: string): (t: string)
    ensures |t| == |s|
  {
    seq(|s|, i requires 0 <= i < |s| => LowerChar(s[i]))
  }

  predicate NoUpper(s: string) {
    forall i :: 0 <= i < |s| ==> !IsUpper(s[i])
  }

  /** Lower-casing leaves no upper-case letter behind, is idempotent, and
      changes nothing else: every character that is not an upper-case
      letter (in particular '.' and '/') stays where it was. */
  lemma LowerSpec(s: string)
    ensures NoUpper(Lower(s))
    ensures Lower(Lower(s)) == Lower(s)
    ensures forall i :: 0 <= i < |s| && !IsUpper(s[i]) ==> Lower(s)[i] == s[i]
    ensures forall i :: 0 <= i < |s| && IsUpper(s[i]) ==> Lower(s)[i] as int == s[i] as int + 32
  {
  }

  /** A string without upper-case letters is its own lower-case form. */
  lemma LowerOfNoUpper(s: string)
    requires NoUpper(s)
    ensures Lower(s) == s
  {
  }

  /** Lower-casing neither adds nor removes a character that is not a
      letter, such as '.' or '/'. */
  lemma LowerKeepsNonLetter(s: string, c: char)
    requires !IsUpper(c) && !('a' <= c <= 'z')
    ensures c in Lower(s) <==> c in s
  {
    if c in Lower(s) {
      var i :| 0 <= i < |s| && Lower(s)[i] == c;
      assert s[i] == c;
    }
    if c in s {
      var i :| 0 <= i < |s| && s[i] == c;
      assert Lower(s)[i] == c;
    }
  }

  /** Index of the last occurrence of `c` in `s`, or -1 when there is none. */
  function LastIndex(s: string, c: char): (r: int)
    ensures -1 <= r < |s|
  {
    if |s| == 0 then -1
    else if s[|s| - 1] == c then |s| - 1
    else LastIndex(s[..|s| - 1], c)
  }

  /** `LastIndex` finds the last occurrence: the index is in range and
      holds `c`, no later position holds `c`, and -1 means `c` is absent. */
  lemma {:induction false} LastIndexSpec(s: string, c: char)
    ensures LastIndex(s, c) >= 0 ==> s[LastIndex(s, c)] == c
    ensures forall j :: LastIndex(s, c) < j < |s| ==> s[j] != c
    ensures LastIndex(s, c) == -1 <==> c !in s
  {
    if |s| > 0 && s[|s| - 1] != c {
      var t := s[..|s| - 1];
      LastIndexSpec(t, c);
      assert forall j :: 0 <= j < |t| ==> t[j] == s[j];
      if c in s {
        var j :| 0 <= j < |s| && s[j] == c;
        assert t[j] == c;
      }
    }
  }

  /** The last occurrence of `c` in `a + [c] + b` is the one between `a` and
      `b` exactly when `b` holds no `c`. */
  lemma {:induction false} LastIndexAfter(a: string, c: char, b: string)
    requires c !in b
    ensures LastIndex(a + [c] + b, c) == |a|
  {
    if |b| == 0 {
      assert a + [c] + b == a + [c];
    } else {
      var s := a + [c] + b;
      var b' := b[..|b| - 1];
      assert s[|s| - 1] == b[|b| - 1];
      assert s[..|s| - 1] == a + [c] + b';
      LastIndexAfter(a, c, b');
    }
  }
}

=== FILE: wrappers.dfy ===
/** An optional value: a form field or upload field that may be absent,
    or a format that may not be selected. */
module Wrappers {

  datatype Option<+T> = None | Some(value: T)
}
